=== FILE: README.md ===
# sshm command layer, modelled in Dafny

sshm is a terminal SSH connection manager. Its users run `sshm` for an
interactive host browser, `sshm <host> [command...]` to connect directly,
and `sshm info <host>` for a machine-readable description of one configured
host. This project models the decision logic of those two commands, which
sits between the command-line arguments and the SSH-config registry:

- `info` (module `Info`). It normalises directive values:
  - `maybeString` trims a value and maps an empty one to null.
  - `maybePort` trims, then parses with `strconv.Atoi`.

  It turns a registry lookup into the `sshm.info.v1` response document and
  exit status. It also completes the host-name argument by a case-insensitive
  prefix filter over the configured names.
- the root command (module `Root`):
  - `RunE` splits the positional arguments into a host and a remote command.
  - `connectToHost` probes the configuration, records history, builds the
    `ssh` argument vector and runs `ssh`.
  - `Execute` falls back to connecting when cobra reports an unknown command
    and names it between double quotes.

Supporting modules:

- `Text`: the Go `strings` functions the code relies on: TrimSpace, ToLower,
  Contains, HasPrefix and Split. HasPrefix is the sequence prefix `<=`.
  IndexOf and Join are helpers that state what Split computes.
- `Numeric`: `strconv.Atoi` on a 64-bit platform, with decimal rendering as
  its inverse.
- `Config`: the interface of the `internal/config` package. The parser,
  merger and registry behind it are not part of this model. Its three
  queries are parameters of the operations that use them:
  - a lookup, returning a host or an error message;
  - a parse of the host list;
  - a quick existence probe.
- `Wrappers`: Option and Result.

Go's `log.Fatalf` and `os.Exit` become values, not process termination. The
connect path is a sequence of `Event`s:
- probe the configuration;
- print a line on standard output or standard error;
- open history;
- record the connection;
- run `ssh` with an argv;
- exit with a status.

A run either ends in `Exit(1)` or in a single `RunSsh`. The `info` command
returns its response document together with the exit status.

The contract of `Root.SshArgv` fixes every position of the argument vector,
so it determines the vector completely. Its "`-t` present iff forced"
clause covers only the flag region, and only when the configuration path is
not itself the text `-t`. The source appends tokens without quoting, so a
host or remote command equal to `-t` also shows up as `-t` later in the
vector.

## Model

| member | source | states |
|---|---|---|
| Text.TrimSpace | cmd/info.go:55 | The trimmed value has no whitespace at either end. Only whitespace surrounds it in the input. It is empty exactly when the input is all whitespace. |
| Text.TrimmedAtUnique | cmd/info.go:55 | Any trimmed infix with only whitespace around it is the TrimSpace result. So that characterisation defines TrimSpace completely. |
| Text.TrimSpacePadded | cmd/info.go:63 | Trimming a trimmed string padded on both sides with any whitespace gives back exactly that string. |
| Text.TrimSpaceIdempotent | cmd/info.go:55 | Trimming twice is the same as trimming once. |
| Text.ToLower | cmd/info.go:179-181 | Lower-casing keeps the length and maps each character on its own: upper-case ASCII letters become lower case and everything else is unchanged. |
| Text.ToLowerIdempotent | cmd/info.go:179-181 | Lower-casing an already lower-cased string changes nothing. |
| Text.Contains | cmd/info.go:109 | Substring test: true exactly when the substring occurs at some index of the message. |
| Text.Split | cmd/root.go:215 | Splitting at a separator character yields at least one piece. No piece contains the separator, and joining the pieces with it restores the input. |
| Text.SplitJoin | cmd/root.go:215 | Split is the inverse of Join whenever no piece contains the separator. |
| Text.SplitPieces | cmd/root.go:215-217 | The first piece runs up to the first separator. There are two or more pieces exactly when the separator occurs. The second piece runs to the next separator or the end. |
| Numeric.ParseDigits | cmd/info.go:67 | The digit loop behind `strconv.Atoi`. It gives a range error exactly when the leading digits already exceed the unsigned 64-bit range, even if a non-digit follows them. It succeeds exactly on all-digit text within that range, with the decimal value of the text. |
| Numeric.Atoi | cmd/info.go:67 | Accepts exactly an optional sign followed by at least one digit, with the value in the 64-bit range. Returns that value. A failure is a range error exactly for well-formed text or for text whose leading digits exceed the unsigned 64-bit range before any non-digit. Every other failure is a syntax error. |
| Numeric.AtoiLongRunIsRange | cmd/info.go:67 | More than twenty leading digits, the first not `0`, give a range error whatever follows them. |
| Numeric.AtoiFormatInt | cmd/info.go:67 | Every 64-bit integer written in decimal parses back to itself. |
| Info.MaybeString | cmd/info.go:54-60 | Null exactly when the value is all whitespace. Otherwise a non-empty string with no whitespace at either end, found in the value with only whitespace around it. |
| Info.MaybeStringPadded | cmd/info.go:54-60 | A non-empty trimmed value with any whitespace padding maps to itself. |
| Info.MaybeStringStable | cmd/info.go:54-60 | Feeding a normalised value back through maybeString leaves it unchanged. |
| Info.MaybePort | cmd/info.go:62-72 | No port and no error exactly for all-whitespace text. An error exactly when the trimmed text is not a 64-bit decimal integer. Otherwise the port is the trimmed text's decimal value. |
| Info.MaybePortReadsDecimal | cmd/info.go:62-72 | Any 64-bit integer in decimal, with any whitespace around it, reads back as that port. This includes 0, negative numbers and numbers above 65535, so there is no range check. |
| Info.MaybePortRejectsNonNumeric | cmd/info.go:67-70 | Text with a non-space character that is neither a digit nor a sign is an error, never a silent zero or null port. |
| Info.RunInfo | cmd/info.go:89-150 | Invariants of every response: schema `sshm.info.v1`; `hostname` is the argument; `ok` iff `result` is present iff `error` is absent; the exit status is in {0,1,2} and follows from the document. A lookup error carries its message, with NOT_FOUND and status 2 exactly when it contains "not found", else CONFIG_ERROR and status 1. A bad port gives status 1, CONFIG_ERROR and the fixed message. Status 0 exactly for a found host with a valid port. Then every result field comes from the host: canonical name, `target.host` as the argument, normalised strings, tags unchanged, and source file and line. |
| Info.RunInfoFieldsNormalised | cmd/info.go:126-145 | Every optional string in a successful result is either null or non-empty with no whitespace at either end. |
| Info.Matching | cmd/info.go:178-184 | Reference filter. A name is kept iff it is among the inputs and its lower-case form starts with the prefix. The kept names are a subsequence of the input, so the order is kept. |
| Info.MatchingCounts | cmd/info.go:180-184 | Each matching name is kept as many times as it occurs in the input, and no other name is kept. |
| Info.MatchingAppend | cmd/info.go:180-184 | Filtering a list extended by one name equals filtering the list, then appending the name if it matches. This is the append step of the loop. |
| Info.MatchingEmptyPrefix | cmd/info.go:178-184 | An empty partial word keeps every host name, in order. |
| Info.FilterByPrefix | cmd/info.go:178-185 | The appending loop computes exactly the reference filter. |
| Info.Complete | cmd/info.go:162-186 | Once the host argument is present: no candidates, no-file-completion directive. If the configuration cannot be parsed: no candidates and the error directive. Otherwise: exactly the reference filter of the host names under the lower-cased word, with the no-file-completion directive. |
| Config.Names | cmd/info.go:180-182 | The host names of a parsed list: one per host, in list order, each the host's canonical name. |
| Config.Locate | cmd/root.go:125-129 | The explicit configuration file is used exactly when the flag is non-empty. Otherwise the default file is used. |
| Root.ParseArgs | cmd/root.go:58-71 | Interactive mode exactly for zero arguments. Otherwise host followed by remote command is exactly the argument list, so the remote command is empty for one argument. |
| Root.ParseCommandArgs | cmd/root.go:64-68 | Reading back a command's positional arguments yields the same command. |
| Root.SshArgv | cmd/root.go:151-165 | Length is 2 for a config file, plus 1 for a forced TTY, plus 1 for the host, plus the remote command length. `-F <file>` leads exactly when a file is given. `-t` ends the flag region when forced and is absent from it otherwise. Then the host, then the remote command tokens in order. |
| Root.HistorySteps | cmd/root.go:141-149 | History is opened first, and only once. Recording this host is attempted exactly when opening succeeded, and then it is the second step. Every other step is a standard-output line starting with "Warning: ". A warning appears exactly when opening or recording fails, and it names the failed step and carries the error. |
| Root.AbortSteps | cmd/root.go:131-139 | A failed probe or an undeclared host prints at least one line and then exits with status 1: every step before the final `Exit(1)` is a printed line. The first line carries the probe's error on standard error, or says on standard output that the host is not in the configuration. Lines go to standard error exactly when the probe itself failed. |
| Root.ProceedSteps | cmd/root.go:141-169 | After a positive probe, history is opened first. Recording is attempted exactly when history opened. No other kind of step occurs: only opening history, recording this host, warnings, the "Connecting to" line and the ssh run. "Connecting to" is printed iff there is no remote command. A warning is printed iff opening or recording history fails. The run ends in one ssh invocation with the built argv, and nothing before it runs ssh or exits. |
| Root.ConnectToHost | cmd/root.go:121-169 | The probe always comes first. A failed or negative probe prints at least one line, then ends in exit 1, with no history opened, nothing recorded and no ssh. Otherwise history is opened right after the probe. After that only this host's record, warnings, the "Connecting to" line and ssh can occur. The run ends in exactly one ssh invocation with the built argv, and history failures do not stop it. |
| Root.ConnectWarnings | cmd/root.go:141-149 | After a positive probe, the connection prints a warning exactly when opening or recording history fails, and still ends by running ssh. |
| Root.RunRoot | cmd/root.go:58-71 | Interactive mode exactly for no arguments. Otherwise the connection to the first argument with the rest as remote command. It probes that host first. If the host is not declared, it exits with status 1 and never runs ssh. If the host is declared, it ends by running ssh with the built argv, and it prints "Connecting to" exactly when there is one argument. |
| Root.DirectArgsReachSsh | cmd/root.go:151-165 | When the host is declared, the user's positional arguments appear verbatim in the ssh argv after sshm's own flags. |
| Root.SecondPieceIsQuoted | cmd/root.go:215-217 | In text containing a double quote, the second piece is the text from the first quote to the second quote or the end. |
| Root.QuotedHost | cmd/root.go:212-220 | A host is extracted exactly when the error mentions "unknown command" and contains a double quote. The host is the text between the first and second quotes, or up to the end. |
| Root.Execute | cmd/root.go:211-225 | No error: nothing happens. An unknown command with a quoted word: the connection to that word with no remote command. If the word is a declared host, it prints "Connecting to" and runs ssh. Otherwise it exits with status 1 and never runs ssh. Any other error: an error line on standard error, then exit 1. |
| Root.FallbackConnectsToQuotedWord | cmd/root.go:214-219 | When the fallback connects, ssh gets the quoted word after sshm's flags and no remote command. |

## Left out

- The `internal/config` package: parsing, block merging, lookup and the quick existence probe. Its source is not part of this model. Its answers are parameters (`Lookup`, `HostList`, `Probe`). The lookup's result type rules out Go's "no host and no error" pair, which would make `runInfo` dereference nil.
- JSON serialisation (`writeInfoJSON`): compact vs `--pretty` output, the trailing newline and the hard-coded INTERNAL fallback document. These are library serialisation. The response is a datatype, `details` is always null, and a nil tag slice is not distinguished from an empty one.
- cobra plumbing: `ExactArgs(1)` argument validation, flag parsing and the `info` command's `os.Exit(exitCode)`. The exit status is returned as a value.
- `runInteractiveMode`: the terminal UI, the "add a host now? [y/N]" prompt and the add form. These are interactive I/O. The model only records that interactive mode is chosen.
- Running `ssh`: the child process, its stdin/stdout/stderr wiring and propagating its exit status. This is process I/O. `RunSsh(argv)` is the last step of a connection.
- The history store: how it opens and records. It is external state. Its two outcomes are parameters.
- `getVersionWithUpdateCheck`: a network query with a 5-second timeout.
- `cmd/completion.go`: shell-script generation glue with no logic of its own.
- Unicode: `strings.TrimSpace` also strips every non-ASCII Unicode White_Space character (U+0085, U+00A0, U+1680, U+2000 to U+200A, U+2028, U+2029, U+202F, U+205F and U+3000), and `strings.ToLower` folds non-ASCII letters. The model uses ASCII whitespace and ASCII letters only.
- Numeric.Atoi: models a 64-bit `int` only. On a 32-bit platform the range check would be at 32 bits.
- `log.Fatalf`'s timestamp prefix and the trailing newlines of printed lines. A printed line records its stream: `log.Fatalf` and the `Error:` line of `Execute` go to standard error, and the `fmt.Printf` lines go to standard output. How the two streams interleave is not modelled.

=== FILE: config.dfy ===
/** The interface of the SSH-config package as the command layer sees it.
    The parser, merger and registry behind it are not part of this model:
    each query is a function the caller supplies, and only the shapes of its
    answers are fixed here. */
module Config {

  /** One configured host as the registry hands it out. Every directive is
      the raw string from the file (the empty string when unset); `port` is
      still text and is parsed by the caller. */
  datatype SshHost = SshHost(
    name: string,
    hostname: string,
    user: string,
    port: string,
    identity: string,
    proxyJump: string,
    proxyCommand: string,
    options: string,
    remoteCommand: string,
    requestTTY: string,
    tags: seq<string>,
    sourceFile: string,
    lineNumber: int)

  /** Which configuration a query reads: the user's default file, or the file
      given with `--config`. */
  datatype ConfigPath = DefaultConfig | ConfigFile(path: string)

  /** The `--config` flag selects the file only when it is non-empty. */
  function Locate(configFile: string): (p: ConfigPath)
    ensures p.DefaultConfig? <==> configFile == ""
    ensures p.ConfigFile? ==> p.path == configFile
  {
    if configFile != "" then ConfigFile(configFile) else DefaultConfig
  }

  /** Answer of a single-host lookup: the host, or the error's message text. */
  datatype Lookup = Found(host: SshHost) | LookupFailed(message: string)

  /** Answer of parsing the whole file into its host list. */
  datatype HostList = Parsed(hosts: seq<SshHost>) | ParseFailed(message: string)

  /** Answer of the cheap existence probe. */
  datatype Probe = Probed(found: bool) | ProbeFailed(message: string)

  /** The canonical names of a host list, in list order. */
  function Names(hosts: seq<SshHost>): (names: seq<string>)
    ensures |names| == |hosts|
    ensures forall i :: 0 <= i < |hosts| ==> names[i] == hosts[i].name
  {
    if hosts == [] then [] else [hosts[0].name] + Names(hosts[1..])
  }
}

=== FILE: info.dfy ===
/** The `info` command: turns the registry's answer for one host into the
    fixed-schema machine-readable response and the process exit status, and
    completes host names for its argument. */
module Info {
  import opened Wrappers
  import opened Text
  import opened Numeric
  import opened Config

  const Schema: string := "sshm.info.v1"
  const CodeNotFound: string := "NOT_FOUND"
  const CodeConfigError: string := "CONFIG_ERROR"
  const InvalidPortMessage: string := "invalid port in host configuration"

  /** The `target` object: where the connection goes. */
  datatype Target = Target(host: string, hostname: Option<string>, user: Option<string>, port: Option<int>)

  /** The `source` object: where the host's block was declared. */
  datatype Source = Source(file: string, line: int)

  /** The `result` object of a successful response. */
  datatype HostInfo = HostInfo(
    canonicalName: string,
    target: Target,
    identityFile: Option<string>,
    proxyJump: Option<string>,
    proxyCommand: Option<string>,
    options: Option<string>,
    tags: seq<string>,
    remoteCommand: Option<string>,
    requestTTY: Option<string>,
    source: Source)

  /** The `error` object of a failed response; its `details` is always null. */
  datatype InfoError = InfoError(code: string, message: string)

  /** The whole JSON document. */
  datatype Response = Response(
    schema: string,
    ok: bool,
    hostname: string,
    result: Option<HostInfo>,
    error: Option<InfoError>)

  /** What `runInfo` produces: the document written out and the exit status. */
  datatype InfoOutcome = InfoOutcome(response: Response, exitCode: int)

  /** The exit status a reader of the document alone would expect. */
  function ExitCodeFor(resp: Response): (code: int)
  {
    if resp.ok then 0
    else if resp.error.Some? && resp.error.value.code == CodeNotFound then 2
    else 1
  }

  /** The invariants every info response keeps: the fixed schema, `ok` true
      exactly when there is a result and exactly when there is no error, and
      an exit status that agrees with the document. */
  predicate WellFormed(out: InfoOutcome) {
    && out.response.schema == Schema
    && (out.response.ok <==> out.response.result.Some?)
    && (out.response.ok <==> out.response.error.None?)
    && out.exitCode == ExitCodeFor(out.response)
  }

  /** `maybeString`: a directive value with surrounding whitespace removed,
      or null when nothing but whitespace is left. */
  function MaybeString(v: string): (r: Option<string>)
    ensures r.None? <==> AllSpace(v)
    ensures r.Some? ==> r.value != [] && Trimmed(r.value)
    ensures r.Some? ==> exists i :: TrimmedAt(v, r.value, i)
  {
    var trimmed := TrimSpace(v);
    assert TrimmedAt(v, trimmed, SkipSpace(v, 0));
    if trimmed == [] then None else Some(trimmed)
  }

  /** A non-empty trimmed value survives any whitespace padding unchanged. */
  lemma MaybeStringPadded(a: string, t: string, b: string)
    requires AllSpace(a) && AllSpace(b)
    requires t != [] && Trimmed(t)
    ensures MaybeString(a + t + b) == Some(t)
  {
    TrimSpacePadded(a, t, b);
  }

  /** Applying `maybeString` to its own output changes nothing. */
  lemma MaybeStringStable(v: string)
    ensures MaybeString(v).Some? ==> MaybeString(MaybeString(v).value) == MaybeString(v)
  {
    TrimSpaceIdempotent(v);
  }

  /** `maybePort`: whitespace-only text is no port and no error; otherwise
      the trimmed text must be a decimal integer `strconv.Atoi` accepts, and
      its value is the port, with no check that it lies in 1..65535. */
  function MaybePort(v: string): (r: Result<Option<int>, NumError>)
    ensures r == Success(None) <==> AllSpace(v)
    ensures r.Failure? <==> !AllSpace(v) && !(IsDecimal(TrimSpace(v)) && InInt64(DecimalValue(TrimSpace(v))))
    ensures r.Success? && r.value.Some? ==> IsDecimal(TrimSpace(v)) && r.value.value == DecimalValue(TrimSpace(v))
  {
    var trimmed := TrimSpace(v);
    if trimmed == [] then Success(None)
    else
      match Atoi(trimmed)
      case Failure(e) => Failure(e)
      case Success(port) => Success(Some(port))
  }

  /** Every 64-bit integer, written in decimal with any whitespace around it,
      reads back as that port; negative and out-of-range ports included. */
  lemma MaybePortReadsDecimal(a: string, n: int, b: string)
    requires AllSpace(a) && AllSpace(b)
    requires InInt64(n)
    ensures MaybePort(a + FormatInt(n) + b) == Success(Some(n))
  {
    var s := FormatInt(n);
    AtoiFormatInt(n);
    assert !IsSpace(s[|s| - 1]);
    TrimSpacePadded(a, s, b);
  }

  /** Text with a non-digit in it is reported as an error, never read as an
      absent or zero port. */
  lemma MaybePortRejectsNonNumeric(v: string, i: nat)
    requires i < |v| && !IsSpace(v[i]) && !IsDigit(v[i]) && v[i] != '+' && v[i] != '-'
    ensures MaybePort(v).Failure?
  {
    var t := TrimSpace(v);
    NonSpaceSurvivesTrim(v, i);
    var j := i - SkipSpace(v, 0);
    assert j == 0 || t[1..][j - 1] == t[j];
  }

  /** The fields of a successful `result` object, as built from the host. */
  predicate Describes(info: HostInfo, hostnameArg: string, host: SshHost, port: Option<int>) {
    && info.canonicalName == host.name
    && info.target == Target(hostnameArg, MaybeString(host.hostname), MaybeString(host.user), port)
    && info.identityFile == MaybeString(host.identity)
    && info.proxyJump == MaybeString(host.proxyJump)
    && info.proxyCommand == MaybeString(host.proxyCommand)
    && info.options == MaybeString(host.options)
    && info.tags == host.tags
    && info.remoteCommand == MaybeString(host.remoteCommand)
    && info.requestTTY == MaybeString(host.requestTTY)
    && info.source == Source(host.sourceFile, host.lineNumber)
  }

  /** `runInfo`: looks the argument up in the selected configuration and
      builds the response. A lookup error is NOT_FOUND with status 2 when its
      message says "not found" and CONFIG_ERROR with status 1 otherwise; an
      unparsable port is a CONFIG_ERROR with status 1; anything else is a
      success with status 0. */
  function RunInfo(hostnameArg: string, configFile: string, getHost: (ConfigPath, string) -> Lookup): (out: InfoOutcome)
    ensures WellFormed(out)
    ensures out.response.hostname == hostnameArg
    ensures out.exitCode in {0, 1, 2}
    ensures var lookup := getHost(Locate(configFile), hostnameArg);
      lookup.LookupFailed? ==>
        && out.response.error.Some?
        && out.response.error.value.message == lookup.message
        && (out.exitCode == 2 <==> Contains(lookup.message, "not found"))
        && (out.response.error.value.code == CodeNotFound <==> Contains(lookup.message, "not found"))
        && (out.response.error.value.code == CodeConfigError <==> !Contains(lookup.message, "not found"))
    ensures var lookup := getHost(Locate(configFile), hostnameArg);
      lookup.Found? && MaybePort(lookup.host.port).Failure? ==>
        && out.exitCode == 1
        && out.response.error == Some(InfoError(CodeConfigError, InvalidPortMessage))
    ensures var lookup := getHost(Locate(configFile), hostnameArg);
      out.exitCode == 0 <==> lookup.Found? && MaybePort(lookup.host.port).Success?
    ensures var lookup := getHost(Locate(configFile), hostnameArg);
      out.exitCode == 0 ==>
        && out.response.result.Some?
        && Describes(out.response.result.value, hostnameArg, lookup.host, MaybePort(lookup.host.port).value)
  {
    var base := Response(Schema, false, hostnameArg, None, None);
    match getHost(Locate(configFile), hostnameArg)
    case LookupFailed(msg) =>
      if Contains(msg, "not found") then
        InfoOutcome(base.(error := Some(InfoError(CodeNotFound, msg))), 2)
      else
        InfoOutcome(base.(error := Some(InfoError(CodeConfigError, msg))), 1)
    case Found(host) =>
      match MaybePort(host.port)
      case Failure(_) =>
        InfoOutcome(base.(error := Some(InfoError(CodeConfigError, InvalidPortMessage))), 1)
      case Success(port) =>
        var info := HostInfo(
          host.name,
          Target(hostnameArg, MaybeString(host.hostname), MaybeString(host.user), port),
          MaybeString(host.identity),
          MaybeString(host.proxyJump),
          MaybeString(host.proxyCommand),
          MaybeString(host.options),
          host.tags,
          MaybeString(host.remoteCommand),
          MaybeString(host.requestTTY),
          Source(host.sourceFile, host.lineNumber));
        InfoOutcome(base.(ok := true, result := Some(info)), 0)
  }

  /** Every string a successful response carries for an optional directive
      is non-empty and has no whitespace at either end. */
  predicate Normalised(o: Option<string>) {
    o.Some? ==> o.value != [] && Trimmed(o.value)
  }

  lemma RunInfoFieldsNormalised(hostnameArg: string, configFile: string, getHost: (ConfigPath, string) -> Lookup)
    ensures var out := RunInfo(hostnameArg, configFile, getHost);
      out.response.result.Some? ==>
        var info := out.response.result.value;
        && Normalised(info.target.hostname) && Normalised(info.target.user)
        && Normalised(info.identityFile) && Normalised(info.proxyJump)
        && Normalised(info.proxyCommand) && Normalised(info.options)
        && Normalised(info.remoteCommand) && Normalised(info.requestTTY)
  {
  }

  /** cobra's completion directives that the completer returns. */
  datatype Directive = NoFileComp | DirectiveError

  /** `r` is `s` with some elements left out and the rest in the same order. */
  predicate IsSubsequence(r: seq<string>, s: seq<string>)
    decreases |s|
  {
    if r == [] then true
    else if s == [] then false
    else if r[0] == s[0] then IsSubsequence(r[1..], s[1..])
    else IsSubsequence(r, s[1..])
  }

  /** The names whose lower-case form starts with `lowerPrefix`, in their
      original order: the reference definition of the completion filter. */
  function Matching(names: seq<string>, lowerPrefix: string): (r: seq<string>)
    ensures |r| <= |names|
    ensures forall x :: x in r <==> x in names && lowerPrefix <= ToLower(x)
    ensures IsSubsequence(r, names)
  {
    if names == [] then []
    else
      var rest := Matching(names[1..], lowerPrefix);
      if lowerPrefix <= ToLower(names[0]) then
        assert ([names[0]] + rest)[1..] == rest;
        [names[0]] + rest
      else
        assert names == [names[0]] + names[1..];
        rest
  }

  /** The filter keeps every copy of a matching name and no copy of any
      other, so with the order kept it is exactly the matching part of the
      list. */
  lemma {:induction false} MatchingCounts(names: seq<string>, lowerPrefix: string)
    ensures forall x :: multiset(Matching(names, lowerPrefix))[x]
                        == if lowerPrefix <= ToLower(x) then multiset(names)[x] else 0
    decreases |names|
  {
    if names != [] {
      MatchingCounts(names[1..], lowerPrefix);
      assert names == [names[0]] + names[1..];
      assert multiset(names) == multiset{names[0]} + multiset(names[1..]);
      var rest := Matching(names[1..], lowerPrefix);
      assert multiset([names[0]] + rest) == multiset{names[0]} + multiset(rest);
    }
  }

  lemma {:induction false} MatchingAppend(names: seq<string>, x: string, lowerPrefix: string)
    ensures Matching(names + [x], lowerPrefix)
         == Matching(names, lowerPrefix) + (if lowerPrefix <= ToLower(x) then [x] else [])
    decreases |names|
  {
    if names == [] {
      assert names + [x] == [x];
    } else {
      assert (names + [x])[1..] == names[1..] + [x];
      MatchingAppend(names[1..], x, lowerPrefix);
    }
  }

  /** An empty prefix keeps every name. */
  lemma {:induction false} MatchingEmptyPrefix(names: seq<string>)
    ensures Matching(names, "") == names
    decreases |names|
  {
    if names != [] {
      MatchingEmptyPrefix(names[1..]);
    }
  }

  /** The completion loop: keeps, in order, each name whose lower-case form
      starts with `lowerPrefix`. */
  method FilterByPrefix(names: seq<string>, lowerPrefix: string) returns (candidates: seq<string>)
    ensures candidates == Matching(names, lowerPrefix)
  {
    candidates := [];
    var i := 0;
    while i < |names|
      invariant 0 <= i <= |names|
      invariant candidates == Matching(names[..i], lowerPrefix)
    {
      MatchingAppend(names[..i], names[i], lowerPrefix);
      assert names[..i + 1] == names[..i] + [names[i]];
      if lowerPrefix <= ToLower(names[i]) {
        candidates := candidates + [names[i]];
      }
      i := i + 1;
    }
    assert names[..i] == names;
  }

  /** The completer of the `info` argument: nothing once the host argument
      is present; nothing with the error directive when the configuration
      cannot be parsed; otherwise the host names, in file order, whose
      lower-case form starts with the lower-cased partial word. */
  method Complete(args: seq<string>, toComplete: string, configFile: string, parse: ConfigPath -> HostList)
    returns (candidates: seq<string>, directive: Directive)
    ensures |args| != 0 ==> candidates == [] && directive == NoFileComp
    ensures |args| == 0 && parse(Locate(configFile)).ParseFailed? ==> candidates == [] && directive == DirectiveError
    ensures |args| == 0 && parse(Locate(configFile)).Parsed? ==>
      && directive == NoFileComp
      && candidates == Matching(Names(parse(Locate(configFile)).hosts), ToLower(toComplete))
  {
    if |args| != 0 {
      return [], NoFileComp;
    }
    var parsed := parse(Locate(configFile));
    if parsed.ParseFailed? {
      return [], DirectiveError;
    }
    candidates := FilterByPrefix(Names(parsed.hosts), ToLower(toComplete));
    directive := NoFileComp;
  }
}

=== FILE: numeric.dfy ===
/** Go's `strconv.Atoi` on a 64-bit platform, with its partner: rendering an
    integer in decimal. */
module Numeric {
  import opened Wrappers

  const MinInt64: int := -0x8000_0000_0000_0000
  const MaxInt64: int := 0x7FFF_FFFF_FFFF_FFFF

  predicate InInt64(n: int) {
    MinInt64 <= n <= MaxInt64
  }

  /** The two failures `strconv.Atoi` reports: `ErrSyntax` and `ErrRange`. */
  datatype NumError = ErrSyntax | ErrRange

  predicate IsDigit(c: char) {
    '0' <= c <= '9'
  }

  function DigitValue(c: char): (d: nat)
    requires IsDigit(c)
    ensures d < 10
  {
    c as int - '0' as int
  }

  function DigitChar(d: nat): (c: char)
    requires d < 10
    ensures IsDigit(c) && DigitValue(c) == d
  {
    ('0' as int + d) as char
  }

  predicate AllDigits(s: string) {
    forall i :: 0 <= i < |s| ==> IsDigit(s[i])
  }

  function Pow10(n: nat): (p: nat)
    ensures p >= 1
  {
    if n == 0 then 1 else 10 * Pow10(n - 1)
  }

  /** The value of a digit string, most significant digit first. */
  function DigitsValue(s: string): nat
    requires AllDigits(s)
  {
    if s == [] then 0 else DigitsValue(s[..|s| - 1]) * 10 + DigitValue(s[|s| - 1])
  }

  /** The text after an optional leading `+` or `-`. */
  function Unsigned(s: string): (u: string)
    ensures |u| <= |s| && u == s[|s| - |u|..]
    ensures |u| < |s| <==> s != [] && (s[0] == '+' || s[0] == '-')
  {
    if s != [] && (s[0] == '+' || s[0] == '-') then s[1..] else s
  }

  /** A decimal integer as `strconv.Atoi` accepts it: an optional `+` or `-`
      followed by at least one ASCII digit, and nothing else. */
  predicate IsDecimal(s: string) {
    Unsigned(s) != [] && AllDigits(Unsigned(s))
  }

  function DecimalValue(s: string): int
    requires IsDecimal(s)
  {
    var magnitude: int := DigitsValue(Unsigned(s));
    if s[0] == '-' then -magnitude else magnitude
  }

  /** The run of digits at the start of `s`. */
  function LeadingDigits(s: string): (d: string)
    ensures d <= s && AllDigits(d)
    ensures |d| < |s| ==> !IsDigit(s[|d|])
    ensures AllDigits(s) ==> d == s
  {
    if s == [] || !IsDigit(s[0]) then []
    else [s[0]] + LeadingDigits(s[1..])
  }

  const MaxUint64: int := 0xFFFF_FFFF_FFFF_FFFF

  /** The digits that follow the sign already exceed an unsigned 64-bit
      integer before the first non-digit, if any, is reached. */
  predicate LeadingOverflow(s: string) {
    DigitsValue(LeadingDigits(Unsigned(s))) > MaxUint64
  }

  lemma {:induction false} DigitsValuePrepend(c: char, s: string)
    requires IsDigit(c) && AllDigits(s)
    ensures AllDigits([c] + s)
    ensures DigitsValue([c] + s) == DigitValue(c) * Pow10(|s|) + DigitsValue(s)
    decreases |s|
  {
    if s == [] {
      assert [c] + s == [c];
      assert [c][..0] == [];
    } else {
      var s' := s[..|s| - 1];
      var last := s[|s| - 1];
      assert ([c] + s)[..|s|] == [c] + s';
      DigitsValuePrepend(c, s');
      assert DigitsValue([c] + s) == DigitsValue([c] + s') * 10 + DigitValue(last);
      AppendDigit(DigitValue(c), Pow10(|s'|), DigitsValue(s'), DigitValue(last));
    }
  }

  lemma AppendDigit(d: nat, p: nat, v: nat, last: nat)
    ensures (d * p + v) * 10 + last == d * (10 * p) + (v * 10 + last)
  {
  }

  lemma ShiftDigit(acc: nat, d: nat, p: nat, rest: nat)
    ensures (acc * 10 + d) * p + rest == acc * (10 * p) + (d * p + rest)
  {
  }

  /** The number whose decimal digits are those of `acc` followed by `t`. */
  function Scaled(acc: nat, t: string): nat
    requires AllDigits(t)
  {
    acc * Pow10(|t|) + DigitsValue(t)
  }

  /** The digit loop of `strconv.ParseUint` in base 10 with 64 bits:
      `n = n*10 + digit` for each character. It fails with a range error as
      soon as `n` exceeds 64 bits, and with a syntax error at the first
      non-digit reached before that. */
  function ParseDigits(s: string, acc: nat): (r: Result<nat, NumError>)
    requires acc <= MaxUint64
    ensures r == Failure(ErrRange) <==> Scaled(acc, LeadingDigits(s)) > MaxUint64
    ensures r.Success? <==> AllDigits(s) && Scaled(acc, s) <= MaxUint64
    ensures r.Success? ==> r.value == Scaled(acc, s)
    decreases |s|
  {
    if s == [] then Success(acc)
    else if !IsDigit(s[0]) then Failure(ErrSyntax)
    else
      var n := acc * 10 + DigitValue(s[0]);
      ParseStep(acc, s);
      if n > MaxUint64 then Failure(ErrRange) else ParseDigits(s[1..], n)
  }

  /** Reading the first digit of `s` into the accumulator keeps the value of
      the leading digits, and of the whole string when it is all digits. */
  lemma ParseStep(acc: nat, s: string)
    requires s != [] && IsDigit(s[0])
    ensures var n := acc * 10 + DigitValue(s[0]);
      && Scaled(acc, LeadingDigits(s)) == Scaled(n, LeadingDigits(s[1..])) >= n
      && (AllDigits(s) ==> AllDigits(s[1..]) && Scaled(acc, s) == Scaled(n, s[1..]))
      && (!AllDigits(s) ==> !AllDigits(s[1..]))
  {
    assert LeadingDigits(s) == [s[0]] + LeadingDigits(s[1..]);
    ShiftValue(acc, s[0], LeadingDigits(s[1..]));
    assert s == [s[0]] + s[1..];
    if AllDigits(s) {
      ShiftValue(acc, s[0], s[1..]);
    }
  }

  /** Reading one more leading digit into the accumulator keeps the value
      of the whole string. */
  lemma ShiftValue(acc: nat, c: char, t: string)
    requires IsDigit(c) && AllDigits(t)
    ensures AllDigits([c] + t)
    ensures Scaled(acc, [c] + t) == Scaled(acc * 10 + DigitValue(c), t)
    ensures Scaled(acc * 10 + DigitValue(c), t) >= acc * 10 + DigitValue(c)
  {
    DigitsValuePrepend(c, t);
    assert Pow10(|[c] + t|) == 10 * Pow10(|t|);
    ShiftDigit(acc, DigitValue(c), Pow10(|t|), DigitsValue(t));
    MulAtLeast(acc * 10 + DigitValue(c), Pow10(|t|));
  }

  lemma MulAtLeast(a: nat, p: nat)
    requires p >= 1
    ensures a * p >= a
  {
  }

  /** `strconv.Atoi` with a 64-bit `int`. An optional sign and at least one
      digit give the value when it fits in 64 bits. Otherwise the error is
      `ErrRange` for well-formed text, and also for text whose leading digits
      pass the unsigned 64-bit range before a non-digit: the digit loop stops
      there without reading on. Any other text is `ErrSyntax`. Inputs shorter
      than 19 bytes take a separate fast path in Go, which gives the same
      answers because their digits cannot leave the 64-bit range. */
  function Atoi(s: string): (r: Result<int, NumError>)
    ensures r.Success? <==> IsDecimal(s) && InInt64(DecimalValue(s))
    ensures r.Success? ==> r.value == DecimalValue(s)
    ensures r.Failure? ==> (r.error == ErrRange <==> IsDecimal(s) || LeadingOverflow(s))
  {
    var digits := Unsigned(s);
    if digits == [] then Failure(ErrSyntax)
    else
      match ParseDigits(digits, 0)
      case Failure(e) => Failure(e)
      case Success(n) =>
        var v: int := if s[0] == '-' then 0 - n else n;
        if InInt64(v) then Success(v) else Failure(ErrRange)
  }

  /** More than twenty leading digits, the first not `0`, make a range
      error whatever follows them. */
  lemma {:induction false} AtoiLongRunIsRange(s: string)
    requires var lead := LeadingDigits(Unsigned(s)); |lead| > 20 && lead[0] != '0'
    ensures !IsDecimal(s) ==> LeadingOverflow(s)
    ensures Atoi(s) == Failure(ErrRange)
  {
    LongRunValue(LeadingDigits(Unsigned(s)));
  }

  /** A digit string longer than twenty digits with a non-zero first digit
      is past the unsigned 64-bit range. */
  lemma {:induction false} LongRunValue(d: string)
    requires AllDigits(d) && |d| > 20 && d[0] != '0'
    ensures DigitsValue(d) > MaxUint64
  {
    var rest := d[1..];
    assert d == [d[0]] + rest;
    DigitsValuePrepend(d[0], rest);
    var p := Pow10(|rest|);
    Pow10Exceeds(|rest|);
    LeadingTerm(DigitValue(d[0]), p, DigitsValue(rest));
  }

  lemma LeadingTerm(v: nat, p: nat, rest: nat)
    requires v >= 1
    ensures v * p + rest >= p
  {
  }

  lemma {:induction false} Pow10Exceeds(n: nat)
    requires n >= 20
    ensures Pow10(n) > MaxUint64
  {
    if n == 20 {
      Pow10Add(10, 10);
      assert Pow10(10) == 10_000_000_000;
    } else {
      Pow10Exceeds(n - 1);
    }
  }

  lemma {:induction false} Pow10Add(a: nat, b: nat)
    ensures Pow10(a + b) == Pow10(a) * Pow10(b)
  {
    if a > 0 {
      Pow10Add(a - 1, b);
    }
  }

  /** Decimal rendering of a natural number, without leading zeros. */
  function FormatNat(n: nat): (s: string)
    ensures s != [] && AllDigits(s)
    ensures DigitsValue(s) == n
    ensures s[0] != '0' || n == 0
    decreases n
  {
    if n < 10 then [DigitChar(n)]
    else
      var s := FormatNat(n / 10) + [DigitChar(n % 10)];
      assert s[..|s| - 1] == FormatNat(n / 10);
      s
  }

  /** Go's `strconv.Itoa`: decimal rendering with a leading `-` for negatives. */
  function FormatInt(n: int): (s: string)
  {
    if n < 0 then "-" + FormatNat(-n) else FormatNat(n)
  }

  /** Atoi reads back what FormatInt writes, for every 64-bit integer. */
  lemma AtoiFormatInt(n: int)
    requires InInt64(n)
    ensures IsDecimal(FormatInt(n))
    ensures Atoi(FormatInt(n)) == Success(n)
  {
    var s := FormatInt(n);
    if n < 0 {
      assert s[1..] == FormatNat(-n);
    } else {
      assert IsDigit(s[0]);
    }
  }
}

=== FILE: root.dfy ===
/** The root command's direct-connect path: reading the positional
    arguments, probing the configuration, recording history, building the
    command line handed to `ssh`, and falling back to a connection when cobra
    reports an unknown command. */
module Root {
  import opened Wrappers
  import opened Text
  import opened Config

  /** What the root command does with its positional arguments. */
  datatype Command = Interactive | Connect(host: string, remoteCommand: seq<string>)

  /** No arguments open the interactive UI; otherwise the first argument is
      the host and the rest, possibly none, is the remote command. */
  function ParseArgs(args: seq<string>): (c: Command)
    ensures c.Interactive? <==> args == []
    ensures c.Connect? ==> [c.host] + c.remoteCommand == args
  {
    if |args| == 0 then Interactive else Connect(args[0], args[1..])
  }

  /** The positional arguments that select a command. */
  function CommandArgs(c: Command): seq<string>
  {
    match c
    case Interactive => []
    case Connect(host, remoteCommand) => [host] + remoteCommand
  }

  /** Reading back the arguments of a command gives that command. */
  lemma ParseCommandArgs(c: Command)
    ensures ParseArgs(CommandArgs(c)) == c
  {
    if c.Connect? {
      assert CommandArgs(c)[1..] == c.remoteCommand;
    }
  }

  /** The process-wide flags that shape the `ssh` command line. */
  datatype Flags = Flags(configFile: string, forceTTY: bool)

  /** How many arguments precede the host: `-F <file>` and `-t`. */
  function FlagCount(f: Flags): nat
  {
    (if f.configFile != "" then 2 else 0) + (if f.forceTTY then 1 else 0)
  }

  /** The arguments passed to `ssh`: `-F <file>` when a configuration file
      was given, then `-t` when a TTY is forced, then the host, then the
      remote command tokens in their original order. */
  function SshArgv(f: Flags, host: string, remoteCommand: seq<string>): (argv: seq<string>)
    ensures |argv| == FlagCount(f) + 1 + |remoteCommand|
    ensures f.configFile != "" ==> argv[0] == "-F" && argv[1] == f.configFile
    ensures f.forceTTY ==> argv[FlagCount(f) - 1] == "-t"
    ensures f.configFile != "-t" ==> ("-t" in argv[..FlagCount(f)] <==> f.forceTTY)
    ensures argv[FlagCount(f)] == host
    ensures argv[FlagCount(f) + 1..] == remoteCommand
  {
    var withConfig := if f.configFile != "" then ["-F", f.configFile] else [];
    var withTTY := if f.forceTTY then withConfig + ["-t"] else withConfig;
    var argv := withTTY + [host] + remoteCommand;
    assert argv[..FlagCount(f)] == withTTY;
    argv
  }

  /** Where a printed line goes. */
  datatype Stream = Stdout | Stderr

  /** One observable step of a direct connection. */
  datatype Event =
    | CheckHost(path: ConfigPath, host: string)
    | Print(stream: Stream, line: string)
    | OpenHistory
    | RecordConnection(host: string)
    | RunSsh(argv: seq<string>)
    | Exit(status: int)

  /** What the connection-history store answers when it is opened and when
      the connection is recorded. */
  datatype History = History(openError: Option<string>, recordError: Option<string>)

  /** The probe says the host is declared. */
  predicate Proceeds(p: Probe) {
    p.Probed? && p.found
  }

  function ConnectingMessage(host: string): string {
    "Connecting to " + host + "..."
  }

  /** Opening the history store and recording the host; each failure only
      prints a warning. */
  function HistorySteps(host: string, history: History): (steps: seq<Event>)
    ensures steps != [] && steps[0] == OpenHistory
    ensures forall k :: 1 <= k < |steps| ==> steps[k] != OpenHistory
    ensures RecordConnection(host) in steps <==> history.openError.None?
    ensures history.openError.None? ==> |steps| >= 2 && steps[1] == RecordConnection(host)
    ensures forall e :: e in steps ==> e == OpenHistory || e == RecordConnection(host) || IsWarning(e)
    ensures HasWarning(steps) <==> history.openError.Some? || history.recordError.Some?
    ensures history.openError.Some? ==>
      Warning("Could not initialize connection history: " + history.openError.value) in steps
    ensures history.openError.None? && history.recordError.Some? ==>
      Warning("Could not record connection history: " + history.recordError.value) in steps
  {
    match history.openError
    case Some(msg) =>
      [OpenHistory, Warning("Could not initialize connection history: " + msg)]
    case None =>
      match history.recordError
      case Some(msg) => [OpenHistory, RecordConnection(host), Warning("Could not record connection history: " + msg)]
      case None => [OpenHistory, RecordConnection(host)]
  }

  /** A line on standard output that starts with "Warning: ". */
  function Warning(text: string): (e: Event)
    ensures IsWarning(e) && e.line[|WarningPrefix|..] == text
  {
    Print(Stdout, WarningPrefix + text)
  }

  const WarningPrefix: string := "Warning: "

  predicate IsWarning(e: Event) {
    e.Print? && e.stream == Stdout && WarningPrefix <= e.line
  }

  predicate HasWarning(steps: seq<Event>) {
    exists e :: e in steps && IsWarning(e)
  }

  lemma HasWarningAppend(a: seq<Event>, b: seq<Event>)
    ensures HasWarning(a + b) <==> HasWarning(a) || HasWarning(b)
  {
    if HasWarning(a + b) {
      var e :| e in a + b && IsWarning(e);
      assert e in a || e in b;
    }
    if HasWarning(b) {
      var e :| e in b && IsWarning(e);
      assert e in a + b;
    }
  }

  /** The steps after a successful probe: history, which never stops the
      run, the optional "Connecting to" line, and finally `ssh`. */
  function ProceedSteps(f: Flags, host: string, remoteCommand: seq<string>, history: History): (steps: seq<Event>)
    ensures steps != [] && steps[|steps| - 1] == RunSsh(SshArgv(f, host, remoteCommand))
    ensures forall k :: 0 <= k < |steps| - 1 ==> !steps[k].RunSsh? && !steps[k].Exit?
    ensures steps[0] == OpenHistory
    ensures RecordConnection(host) in steps <==> history.openError.None?
    ensures Print(Stdout, ConnectingMessage(host)) in steps <==> remoteCommand == []
    ensures HasWarning(steps) <==> history.openError.Some? || history.recordError.Some?
    ensures forall e :: e in steps ==> ProceedEvent(e, f, host, remoteCommand)
  {
    var historySteps := HistorySteps(host, history);
    var announce := if remoteCommand == [] then [Print(Stdout, ConnectingMessage(host))] else [];
    assert ConnectingMessage(host)[0] == 'C';
    assert !HasWarning(announce);
    var run := RunSsh(SshArgv(f, host, remoteCommand));
    var before := historySteps + announce;
    HasWarningAppend(historySteps, announce);
    HasWarningAppend(before, [run]);
    RunsOnlyAtEnd(before, run);
    before + [run]
  }

  /** Appending one step to steps that neither run `ssh` nor exit makes it
      the only such step, at the end. */
  lemma RunsOnlyAtEnd(before: seq<Event>, last: Event)
    requires forall e :: e in before ==> !e.RunSsh? && !e.Exit?
    ensures var steps := before + [last];
      forall k :: 0 <= k < |steps| - 1 ==> !steps[k].RunSsh? && !steps[k].Exit?
  {
    var steps := before + [last];
    forall k | 0 <= k < |steps| - 1
      ensures !steps[k].RunSsh? && !steps[k].Exit?
    {
      assert steps[k] == before[k];
    }
  }

  /** The only steps a connection takes after a positive probe: history,
      its warnings, the "Connecting to" line and the one `ssh` run. */
  predicate ProceedEvent(e: Event, f: Flags, host: string, remoteCommand: seq<string>) {
    || e == OpenHistory
    || e == RecordConnection(host)
    || IsWarning(e)
    || e == Print(Stdout, ConnectingMessage(host))
    || e == RunSsh(SshArgv(f, host, remoteCommand))
  }

  /** The steps after a failed or negative probe: messages, then exit 1. */
  function AbortSteps(host: string, probe: Probe): (steps: seq<Event>)
    requires !Proceeds(probe)
    ensures |steps| >= 2 && steps[|steps| - 1] == Exit(1)
    ensures probe.ProbeFailed? ==> steps[0] == Print(Stderr, "Error checking SSH config: " + probe.message)
    ensures probe.Probed? ==> steps[0] == Print(Stdout, "Error: Host '" + host + "' not found in SSH configuration.")
    ensures forall e :: e in steps ==> e.Print? || e.Exit?
    ensures forall k :: 0 <= k < |steps| - 1 ==> steps[k].Print?
    ensures forall e :: e in steps && e.Print? ==> (e.stream == Stderr <==> probe.ProbeFailed?)
  {
    match probe
    case ProbeFailed(msg) =>
      [Print(Stderr, "Error checking SSH config: " + msg), Exit(1)]
    case Probed(_) =>
      [Print(Stdout, "Error: Host '" + host + "' not found in SSH configuration."),
       Print(Stdout, "Use 'sshm' to see available hosts."),
       Exit(1)]
  }

  /** `connectToHost` as the sequence of steps it takes. It always probes
      first. A failed probe or an undeclared host ends in exit status 1
      before history is touched and without running `ssh`. Otherwise history
      is opened and recorded, whose failures are not fatal, and the run ends
      with exactly one `ssh` invocation. The "Connecting to" line appears
      exactly when there is no remote command. */
  function ConnectToHost(f: Flags, host: string, remoteCommand: seq<string>,
                         quickExists: (ConfigPath, string) -> Probe, history: History): (trace: seq<Event>)
    ensures |trace| >= 2 && trace[0] == CheckHost(Locate(f.configFile), host)
    ensures !Proceeds(quickExists(Locate(f.configFile), host)) ==>
      && |trace| >= 3
      && trace[|trace| - 1] == Exit(1)
      && (forall k :: 0 < k < |trace| - 1 ==> trace[k].Print?)
      && forall e :: e in trace ==> !e.OpenHistory? && !e.RecordConnection? && !e.RunSsh?
    ensures Proceeds(quickExists(Locate(f.configFile), host)) ==>
      && trace[|trace| - 1] == RunSsh(SshArgv(f, host, remoteCommand))
      && (forall k :: 0 <= k < |trace| - 1 ==> !trace[k].RunSsh? && !trace[k].Exit?)
      && trace[1] == OpenHistory
      && (forall e :: e in trace[1..] ==> ProceedEvent(e, f, host, remoteCommand))
      && (RecordConnection(host) in trace <==> history.openError.None?)
      && (Print(Stdout, ConnectingMessage(host)) in trace <==> remoteCommand == [])
  {
    var path := Locate(f.configFile);
    var probe := quickExists(path, host);
    var rest := if Proceeds(probe) then ProceedSteps(f, host, remoteCommand, history) else AbortSteps(host, probe);
    var trace := [CheckHost(path, host)] + rest;
    assert trace[1..] == rest;
    trace
  }

  /** A connection that gets past the probe prints a warning exactly when
      opening or recording history fails, and still runs `ssh`. */
  lemma ConnectWarnings(f: Flags, host: string, remoteCommand: seq<string>,
                        quickExists: (ConfigPath, string) -> Probe, history: History)
    requires Proceeds(quickExists(Locate(f.configFile), host))
    ensures var trace := ConnectToHost(f, host, remoteCommand, quickExists, history);
      && (HasWarning(trace) <==> history.openError.Some? || history.recordError.Some?)
      && trace[|trace| - 1].RunSsh?
  {
    var path := Locate(f.configFile);
    HasWarningAppend([CheckHost(path, host)], ProceedSteps(f, host, remoteCommand, history));
  }

  /** What the root command runs for its positional arguments. */
  datatype RootRun = RunInteractive | RunDirect(trace: seq<Event>)

  /** `RootCmd.RunE`: the interactive UI without arguments, else a direct
      connection to the first argument with the rest as remote command. */
  function RunRoot(args: seq<string>, f: Flags, quickExists: (ConfigPath, string) -> Probe, history: History): (r: RootRun)
    ensures r.RunInteractive? <==> args == []
    ensures r.RunDirect? ==> r.trace != [] && r.trace[0] == CheckHost(Locate(f.configFile), args[0])
    ensures r.RunDirect? ==> r.trace == ConnectToHost(f, args[0], args[1..], quickExists, history)
    ensures r.RunDirect? && !Proceeds(quickExists(Locate(f.configFile), args[0])) ==>
      r.trace[|r.trace| - 1] == Exit(1) && forall e :: e in r.trace ==> !e.RunSsh?
    ensures r.RunDirect? && Proceeds(quickExists(Locate(f.configFile), args[0])) ==>
      && r.trace[|r.trace| - 1] == RunSsh(SshArgv(f, args[0], args[1..]))
      && (Print(Stdout, ConnectingMessage(args[0])) in r.trace <==> |args| == 1)
  {
    match ParseArgs(args)
    case Interactive => RunInteractive
    case Connect(host, remoteCommand) => RunDirect(ConnectToHost(f, host, remoteCommand, quickExists, history))
  }

  /** The user's positional arguments reach `ssh` verbatim, after sshm's
      own flags. */
  lemma DirectArgsReachSsh(args: seq<string>, f: Flags, quickExists: (ConfigPath, string) -> Probe, history: History)
    requires args != []
    requires Proceeds(quickExists(Locate(f.configFile), args[0]))
    ensures var trace := RunRoot(args, f, quickExists, history).trace;
      && trace[|trace| - 1].RunSsh?
      && trace[|trace| - 1].argv[FlagCount(f)..] == args
  {
    var argv := SshArgv(f, args[0], args[1..]);
    assert argv[FlagCount(f)..] == [argv[FlagCount(f)]] + argv[FlagCount(f) + 1..];
  }

  /** `s[i]` is the first double quote of `s` and `h` is the text after it,
      up to the next double quote or the end of `s`. */
  predicate QuotedAt(s: string, h: string, i: int) {
    && 0 <= i
    && i + 1 + |h| <= |s|
    && s[i] == '"'
    && (forall k :: 0 <= k < i ==> s[k] != '"')
    && (forall k :: 0 <= k < |h| ==> h[k] == s[i + 1 + k] && h[k] != '"')
    && (i + 1 + |h| == |s| || s[i + 1 + |h|] == '"')
  }

  lemma QuotedRest(s: string, i: nat, j: nat)
    requires '"' in s
    requires i == IndexOf(s, '"')
    requires i < |s| ==> j == IndexOf(s[i + 1..], '"')
    ensures i < |s| && QuotedAt(s, s[i + 1..][..j], i)
  {
    var rest := s[i + 1..];
    assert forall k :: 0 <= k < j ==> rest[..j][k] == rest[k];
  }

  /** The second piece of a split at double quotes is the quoted text. */
  lemma SecondPieceIsQuoted(s: string)
    requires '"' in s
    ensures |Split(s, '"')| >= 2
    ensures QuotedAt(s, Split(s, '"')[1], IndexOf(s, '"'))
  {
    SplitPieces(s, '"');
    var i := IndexOf(s, '"');
    QuotedRest(s, i, IndexOf(s[i + 1..], '"'));
  }

  /** The host name `Execute` reads out of an "unknown command" error: the
      second piece when the message is split at double quotes. */
  function QuotedHost(errStr: string): (h: Option<string>)
    ensures h.Some? <==> Contains(errStr, "unknown command") && '"' in errStr
    ensures h.Some? ==> QuotedAt(errStr, h.value, IndexOf(errStr, '"'))
  {
    if Contains(errStr, "unknown command") then
      var parts := Split(errStr, '"');
      SplitPieces(errStr, '"');
      if |parts| >= 2 then
        SecondPieceIsQuoted(errStr);
        Some(parts[1])
      else
        None
    else
      None
  }

  /** `Execute`: cobra's error, if any, decides the rest. An unknown command
      that names a quoted word connects to that word with no remote command;
      any other error is printed and exits with status 1. */
  function Execute(rootError: Option<string>, f: Flags,
                   quickExists: (ConfigPath, string) -> Probe, history: History): (trace: seq<Event>)
    ensures rootError.None? ==> trace == []
    ensures rootError.Some? && QuotedHost(rootError.value).None? ==>
      trace == [Print(Stderr, "Error: " + rootError.value), Exit(1)]
    ensures rootError.Some? && QuotedHost(rootError.value).Some? ==>
      && trace != [] && trace[0] == CheckHost(Locate(f.configFile), QuotedHost(rootError.value).value)
      && trace == ConnectToHost(f, QuotedHost(rootError.value).value, [], quickExists, history)
    ensures rootError.Some? && QuotedHost(rootError.value).Some? ==>
      var host := QuotedHost(rootError.value).value;
      if Proceeds(quickExists(Locate(f.configFile), host)) then
        trace[|trace| - 1] == RunSsh(SshArgv(f, host, [])) && Print(Stdout, ConnectingMessage(host)) in trace
      else
        trace[|trace| - 1] == Exit(1) && forall e :: e in trace ==> !e.RunSsh?
  {
    match rootError
    case None => []
    case Some(err) =>
      match QuotedHost(err)
      case Some(host) => ConnectToHost(f, host, [], quickExists, history)
      case None => [Print(Stderr, "Error: " + err), Exit(1)]
  }

  /** When the fallback connects, `ssh` gets exactly the quoted word after
      sshm's own flags, and nothing else. */
  lemma FallbackConnectsToQuotedWord(err: string, f: Flags, quickExists: (ConfigPath, string) -> Probe, history: History)
    requires QuotedHost(err).Some?
    requires Proceeds(quickExists(Locate(f.configFile), QuotedHost(err).value))
    ensures var trace := Execute(Some(err), f, quickExists, history);
      && trace[|trace| - 1].RunSsh?
      && trace[|trace| - 1].argv[FlagCount(f)..] == [QuotedHost(err).value]
  {
    var argv := SshArgv(f, QuotedHost(err).value, []);
    assert argv[FlagCount(f)..] == [argv[FlagCount(f)]];
  }
}

=== FILE: text.dfy ===
/** The string operations of Go's `strings` package that the command layer
    relies on, restricted to ASCII: TrimSpace, ToLower, HasPrefix (as the
    sequence prefix `<=`), Contains, Index of one character, Split and Join. */
module Text {

  /** ASCII whitespace as `strings.TrimSpace` sees it: space, \t, \n, \v, \f, \r. */
  predicate IsSpace(c: char) {
    c == ' ' || 9 <= c as int <= 13
  }

  predicate AllSpace(s: string) {
    forall i :: 0 <= i < |s| ==> IsSpace(s[i])
  }

  /** Neither end of `t` is whitespace. */
  predicate Trimmed(t: string) {
    t == [] || (!IsSpace(t[0]) && !IsSpace(t[|t| - 1]))
  }

  /** `s` is `t` surrounded by whitespace only, with `t` starting at index `i`. */
  predicate TrimmedAt(s: string, t: string, i: int) {
    && 0 <= i
    && i + |t| <= |s|
    && (forall k :: 0 <= k < |t| ==> t[k] == s[i + k])
    && (forall k :: 0 <= k < i ==> IsSpace(s[k]))
    && (forall k :: i + |t| <= k < |s| ==> IsSpace(s[k]))
  }

  /** The index of the first non-whitespace character at or after `i`, or
      `|s|` when there is none. */
  function SkipSpace(s: string, i: nat): (j: nat)
    requires i <= |s|
    ensures i <= j <= |s|
    ensures forall k :: i <= k < j ==> IsSpace(s[k])
    ensures j < |s| ==> !IsSpace(s[j])
    decreases |s| - i
  {
    if i < |s| && IsSpace(s[i]) then SkipSpace(s, i + 1) else i
  }

  /** The index just past the last non-whitespace character in `s[lo..j]`,
      or `lo` when there is none. */
  function SkipSpaceBack(s: string, lo: nat, j: nat): (e: nat)
    requires lo <= j <= |s|
    ensures lo <= e <= j
    ensures forall k :: e <= k < j ==> IsSpace(s[k])
    ensures e > lo ==> !IsSpace(s[e - 1])
    decreases j
  {
    if j > lo && IsSpace(s[j - 1]) then SkipSpaceBack(s, lo, j - 1) else j
  }

  /** Go's `strings.TrimSpace` (ASCII whitespace only): the infix of `s` with
      no whitespace at either end and only whitespace around it. It is empty
      exactly when `s` is all whitespace. */
  function TrimSpace(s: string): (t: string)
    ensures Trimmed(t)
    ensures t == [] <==> AllSpace(s)
    ensures TrimmedAt(s, t, SkipSpace(s, 0))
  {
    var i := SkipSpace(s, 0);
    var e := SkipSpaceBack(s, i, |s|);
    s[i..e]
  }

  /** Only one trimmed infix of `s` has nothing but whitespace around it, so
      TrimSpace is characterised by TrimmedAt. */
  lemma TrimmedAtUnique(s: string, t: string, i: int)
    requires Trimmed(t) && TrimmedAt(s, t, i)
    ensures TrimSpace(s) == t
  {
    if t != [] {
      assert !IsSpace(s[i]);
      assert SkipSpace(s, 0) == i;
      assert !IsSpace(s[i + |t| - 1]);
      assert SkipSpaceBack(s, i, |s|) == i + |t|;
    }
  }

  /** Whitespace padding is exactly what TrimSpace removes: trimming a
      trimmed string surrounded by any whitespace gives the string back. */
  lemma TrimSpacePadded(a: string, t: string, b: string)
    requires AllSpace(a) && AllSpace(b) && Trimmed(t)
    ensures TrimSpace(a + t + b) == t
  {
    var s := a + t + b;
    assert forall k :: 0 <= k < |a| ==> s[k] == a[k];
    assert forall k :: |a| + |t| <= k < |s| ==> s[k] == b[k - |a| - |t|];
    TrimmedAtUnique(s, t, |a|);
  }

  /** A character that is not whitespace lies inside what TrimSpace keeps. */
  lemma NonSpaceSurvivesTrim(v: string, i: nat)
    requires i < |v| && !IsSpace(v[i])
    ensures SkipSpace(v, 0) <= i < SkipSpace(v, 0) + |TrimSpace(v)|
    ensures TrimSpace(v)[i - SkipSpace(v, 0)] == v[i]
  {
  }

  /** TrimSpace is idempotent. */
  lemma TrimSpaceIdempotent(s: string)
    ensures TrimSpace(TrimSpace(s)) == TrimSpace(s)
  {
    TrimmedAtUnique(TrimSpace(s), TrimSpace(s), 0);
  }

  /** ASCII `unicode.ToLower`: upper-case letters map to lower case, every
      other character is unchanged. */
  function LowerChar(c: char): (d: char)
  {
    if 'A' <= c <= 'Z' then (c as int + 32) as char else c
  }

  /** Go's `strings.ToLower`, restricted to ASCII letters. */
  function ToLower(s: string): (t: string)
    ensures |t| == |s|
    ensures forall i :: 0 <= i < |s| ==> t[i] == LowerChar(s[i])
  {
    if s == [] then [] else [LowerChar(s[0])] + ToLower(s[1..])
  }

  /** Lower-casing an already lower-cased string changes nothing. */
  lemma {:induction false} ToLowerIdempotent(s: string)
    ensures ToLower(ToLower(s)) == ToLower(s)
  {
    var t := ToLower(s);
    assert forall i :: 0 <= i < |t| ==> LowerChar(t[i]) == t[i];
  }

  /** `sub` occurs in `s` starting at index `i`. */
  predicate OccursAt(s: string, sub: string, i: int) {
    0 <= i && i + |sub| <= |s| && s[i..i + |sub|] == sub
  }

  /** Go's `strings.Contains`. */
  function Contains(s: string, sub: string): (b: bool)
    ensures b <==> exists i :: OccursAt(s, sub, i)
  {
    ContainsFrom(s, sub, 0)
  }

  /** `sub` occurs in `s` at some index from `i` on. */
  function ContainsFrom(s: string, sub: string, i: nat): (b: bool)
    ensures b <==> exists k :: i <= k && OccursAt(s, sub, k)
    decreases |s| - i
  {
    if OccursAt(s, sub, i) then true
    else if i + |sub| >= |s| then false
    else ContainsFrom(s, sub, i + 1)
  }

  /** Index of the first `c` in `s`, or `|s|` when there is none (Go's
      `strings.IndexByte`, with "not found" as `|s|` rather than -1). */
  function IndexOf(s: string, c: char): (i: nat)
    ensures i <= |s|
    ensures forall k :: 0 <= k < i ==> s[k] != c
    ensures i < |s| ==> s[i] == c
  {
    IndexFrom(s, c, 0)
  }

  function IndexFrom(s: string, c: char, j: nat): (i: nat)
    requires j <= |s|
    ensures j <= i <= |s|
    ensures forall k :: j <= k < i ==> s[k] != c
    ensures i < |s| ==> s[i] == c
    decreases |s| - j
  {
    if j == |s| || s[j] == c then j else IndexFrom(s, c, j + 1)
  }

  /** Go's `strings.Join` with a one-character separator. */
  function Join(parts: seq<string>, sep: char): (s: string)
    decreases |parts|
  {
    if |parts| == 0 then []
    else if |parts| == 1 then parts[0]
    else parts[0] + [sep] + Join(parts[1..], sep)
  }

  /** Go's `strings.Split` with a one-character separator: the pieces
      between consecutive separators. Joining them back gives the input, and
      no piece contains the separator; those two facts determine the pieces. */
  function Split(s: string, sep: char): (parts: seq<string>)
    ensures |parts| >= 1
    ensures forall k :: 0 <= k < |parts| ==> sep !in parts[k]
    ensures Join(parts, sep) == s
    decreases |s|
  {
    var i := IndexOf(s, sep);
    if i == |s| then
      assert forall k :: 0 <= k < |s| ==> s[k] != sep;
      [s]
    else
      assert forall k :: 0 <= k < i ==> s[..i][k] == s[k];
      var rest := Split(s[i + 1..], sep);
      var parts := [s[..i]] + rest;
      assert parts[1..] == rest;
      assert s == s[..i] + [sep] + s[i + 1..];
      parts
  }

  /** The first piece runs up to the first separator; the second, when there
      is one, runs from there up to the next separator or the end. */
  lemma SplitPieces(s: string, sep: char)
    ensures Split(s, sep)[0] == s[..IndexOf(s, sep)]
    ensures |Split(s, sep)| >= 2 <==> sep in s
    ensures sep in s ==>
      var rest := s[IndexOf(s, sep) + 1..];
      Split(s, sep)[1] == rest[..IndexOf(rest, sep)]
  {
    var i := IndexOf(s, sep);
    if i < |s| {
      var rest := s[i + 1..];
      assert Split(s, sep) == [s[..i]] + Split(rest, sep);
      assert Split(rest, sep)[0] == rest[..IndexOf(rest, sep)];
    } else {
      assert s[..i] == s;
    }
  }

  /** Where the separator occurs first in a joined string. */
  lemma IndexOfJoined(p: string, sep: char, r: string)
    requires sep !in p
    ensures IndexOf(p + [sep] + r, sep) == |p|
  {
    var s := p + [sep] + r;
    assert s[|p|] == sep;
    assert s[..|p|] == p;
  }

  /** Split undoes Join whenever no piece contains the separator. */
  lemma {:induction false} SplitJoin(parts: seq<string>, sep: char)
    requires |parts| >= 1
    requires forall k :: 0 <= k < |parts| ==> sep !in parts[k]
    ensures Split(Join(parts, sep), sep) == parts
    decreases |parts|
  {
    if |parts| == 1 {
      var s := parts[0];
      assert IndexOf(s, sep) == |s|;
    } else {
      var rest := Join(parts[1..], sep);
      var s := parts[0] + [sep] + rest;
      IndexOfJoined(parts[0], sep, rest);
      assert s[..|parts[0]|] == parts[0];
      assert s[|parts[0]| + 1..] == rest;
      SplitJoin(parts[1..], sep);
      assert parts == [parts[0]] + parts[1..];
    }
  }
}

=== FILE: wrappers.dfy ===
/** Option and Result types used for the nil-able `*T` fields and (value, error)
    pairs of the modelled Go code. */
module Wrappers {

  /** A Go `*T` that may be nil: `None` is nil, `Some(v)` refers to `v`. */
  datatype Option<T> = None | Some(value: T)

  /** A Go `(value, error)` pair where exactly one side is meaningful. */
  datatype Result<T, E> = Success(value: T) | Failure(error: E)
}
